=== FILE: README.md ===
# hdmi2usbmon event core in Dafny

A model of the generic event engine of hdmi2usbmon (`hdmi2usbmon/events/events.py`).
It has three parts:

- **Event** (`Events`). A record of a timestamp, a list of type tags and a payload.
  The constructor defaults the tags to `['basic']` and splits a tag string on `','`.
  It can also copy an existing event.
- **EventTypeHandler** (`Handlers`). A handler whose `filter_only` list is built by flattening its `*types` arguments one level.
  It accepts every event when that list is empty.
  Otherwise it accepts exactly the events that carry at least one listed tag.
- **EventDispatcher** (`Dispatch`). An ordered registry of handlers without duplicates, plus a FIFO event queue.
  `add_handler`, `remove_handler` and `send_event` are pure functions.
  Each returns the new dispatcher together with the boolean the Python method returns.
  The non-looping `dispatch_events` is a method with loops: it enqueues its arguments, then drains the queue.
  It returns `(qcount, hcount)` and the trace of `handle_event` calls it made.

`DispatchProps` relates the operations to each other:
- FIFO delivery order;
- which (event, handler) pairs are delivered;
- per-handler call counts;
- the add/remove round trip and order preservation;
- duplicate-freedom over any sequence of calls;
- the dispatch scenario of `tests/test_event.py`.

Modelling choices:
- The wall clock `time.time()` is a parameter `now`.
- A handler's callable is not run. Each call of `handle_event` becomes a `Delivery(event, handler)` entry in a trace.
- A handler object is modelled by its whole record, an `id` plus its filter. Registry membership, `list.index` and `del` compare these records.
- The constructor's `qclass` and `hclass` are fixed to their defaults, `queue.Queue` and `list`. The queue is therefore unbounded and FIFO, and `put` never raises `queue.Full`.

Behaviour of `hdmi2usbmon/events/events.py` worth noting:
- Handler exceptions are not caught by `dispatch_events` (`hdmi2usbmon/events/events.py:173-176`).
  So the model has no failure isolation; its handlers cannot fail.
- Tags are a Python list, not a set. An explicit empty list gives an event with no tags.
- A non-handler or non-event argument trips an `assert isinstance`. Dafny's types rule these out.

The dispatch test registers its handlers as `EventTypeHandler('basic', func=...)`.
That call passes `func` twice and would raise a `TypeError` (`tests/test_event.py:57-59`).
The scenario lemmas use the evident intent, `EventTypeHandler(callback, 'basic')`.
The test's error events also carry a formatted `message` string. The model keeps only the `error` number, since dispatch never reads the payload.

## Model

| member | source | states |
|---|---|---|
| `Events.Split` | hdmi2usbmon/events/events.py:28-29 | splitting a tag string on `','` gives a non-empty list of parts, none containing `','` |
| `Events.JoinSplit` | hdmi2usbmon/events/events.py:28-29 | joining the split parts with `','` gives back the original string |
| `Events.SplitJoin` | hdmi2usbmon/events/events.py:28-29 | a non-empty list of comma-free tags survives join-then-split, so the split is the only such decomposition |
| `Events.SplitDelimiterFree` | hdmi2usbmon/events/events.py:27-29 | a tag string without `','` becomes a one-tag list (so the default type gives `['basic']`) |
| `Events.NewEvent` | hdmi2usbmon/events/events.py:21-31 | a copy repeats the source event's timestamp, tags and data; otherwise data is the argument and the timestamp is the supplied one or the clock reading; tags are `['basic']`, the given list, or comma-free parts that join back to the given string (a single tag when it has no comma) |
| `Events.DescribesUnique` | hdmi2usbmon/events/events.py:21-31 | the constructor's description determines the event completely |
| `Events.CreateEvent` | hdmi2usbmon/events/events.py:33-43 | `create_event` builds an event meeting the same description as the constructor |
| `Events.InitAsWritten` | hdmi2usbmon/events/events.py:18-31 | as written, a new event never gets its `event_type` slot; a copy fails with `AttributeError` exactly when the source's slot is unset, and otherwise repeats the source |
| `Events.GeneralEventHasNoTags` | tests/test_event.py:26-35 | `Event('general')` as written has no `event_type`, and copying it raises `AttributeError`; the corrected event has the list `['general']` the test expects |
| `Events.InitAsWrittenAgrees` | hdmi2usbmon/events/events.py:21-31 | given a fully assigned source event, the as-written and corrected constructors agree on timestamp and data, and a copy also agrees on the tags |
| `Handlers.Flatten` | hdmi2usbmon/events/events.py:77-82 | a tag is in `filter_only` exactly when some `*types` argument is that tag or is a list/tuple holding it |
| `Handlers.NewTypeHandler` | hdmi2usbmon/events/events.py:75-82 | the handler keeps its identity; its filter holds exactly the tags named by the arguments; it is non-empty when there is at least one argument and every argument is a single tag |
| `Handlers.AcceptEvent` | hdmi2usbmon/events/events.py:84-90 | the loop returns true exactly when the filter is empty or some event tag is in the filter |
| `Handlers.AcceptsIffIntersects` | hdmi2usbmon/events/events.py:84-90 | acceptance is: empty filter, or the event's tag set meets the filter's tag set |
| `Dispatch.NewDispatcher` | hdmi2usbmon/events/events.py:98-100 | a new dispatcher has an empty queue and an empty (hence duplicate-free) registry |
| `Dispatch.ListInsertIndex` | hdmi2usbmon/events/events.py:116 | `list.insert` puts the element at the given index when it is in range, counts a negative index `i` from the end (`i + n`), and clamps: an index past the end gives `n`, one below `-n` gives `0` |
| `Dispatch.AddAt` | hdmi2usbmon/events/events.py:110-118 | a handler already registered is refused with no change; otherwise it lands at the index, the registry grows by exactly that handler and stays duplicate-free |
| `Dispatch.AddHandler` | hdmi2usbmon/events/events.py:102-118 | refusal iff already registered, with nothing changed; `None`/`False` append, `True` and `0` put it first, an in-range index puts it there, a too-large index appends, a negative index `i` with `-n <= i` puts it at `i + n` and a smaller one puts it first; the queue is untouched and duplicate-freedom kept |
| `DispatchProps.AddHandlerAppends` | hdmi2usbmon/events/events.py:110-118 | `add_handler(handler)` of an unregistered handler appends it at the end and returns true |
| `Dispatch.AddHandlerAsWritten` | hdmi2usbmon/events/events.py:111-116 | as written every falsy `at_pos`, `0` included, appends; `at_pos=0` behaves exactly like `add_handler(handler)` with no position, and every other `at_pos` matches the corrected `add_handler` |
| `Dispatch.IndexOf` | hdmi2usbmon/events/events.py:130 | `list.index` finds the first position holding the handler |
| `Dispatch.RemoveAt` | hdmi2usbmon/events/events.py:130 | `del` removes exactly one occurrence; in a duplicate-free registry the removed handler is gone and no duplicates appear |
| `Dispatch.RemoveHandler` | hdmi2usbmon/events/events.py:120-133 | `None` empties the registry and returns true; an absent handler returns false with no change; a present one returns true and is removed alone (one fewer entry, multiset minus it); the queue is untouched |
| `Dispatch.RemoveHandlerAsWritten` | hdmi2usbmon/events/events.py:126-133 | as written the call raises exactly when the handler is registered; otherwise it agrees with the corrected removal |
| `Dispatch.SendEvent` | hdmi2usbmon/events/events.py:135-148 | `None` returns false and leaves the dispatcher unchanged; an event is appended at the tail of the queue and true is returned; the registry is untouched |
| `Dispatch.Sendable` | hdmi2usbmon/events/events.py:163-166 | the events enqueued by `dispatch_events` are no more than its arguments |
| `Dispatch.SendableIsPrefix` | hdmi2usbmon/events/events.py:163-166 | those events are the arguments before the first `None`, which is where enqueueing stops |
| `Dispatch.Enqueue` | hdmi2usbmon/events/events.py:161-166 | the loop appends the enqueued prefix to the queue, leaves the registry alone, and `qcount` is its length |
| `Dispatch.OfferEvent` | hdmi2usbmon/events/events.py:173-176 | one event is offered to the registry snapshot in order; the calls made are the accepting handlers, counted |
| `Dispatch.Drain` | hdmi2usbmon/events/events.py:168-176 | draining empties the queue, keeps the registry, and makes the calls of every queued event in FIFO order, counted |
| `Dispatch.DispatchEvents` | hdmi2usbmon/events/events.py:150-177 | `qcount` is the length of the enqueued prefix of the arguments; afterwards the queue is empty and the registry unchanged; the trace is the deliveries of old queue plus that prefix, and `hcount` is its length |
| `DispatchProps.DeliveriesAppend` | hdmi2usbmon/events/events.py:168-176 | FIFO: all deliveries of earlier queued events come before those of later ones |
| `DispatchProps.AcceptedMembership` | hdmi2usbmon/events/events.py:173-176 | for one event, `handle_event` is called on a handler iff it is registered and accepts the event |
| `DispatchProps.DeliveryMembership` | hdmi2usbmon/events/events.py:168-176 | a pair is delivered iff the event was queued, the handler registered, and the handler accepts the event |
| `DispatchProps.ClearedRegistryDeliversNothing` | hdmi2usbmon/events/events.py:126-127 | after `remove_handler(None)` no event is delivered to anything |
| `DispatchProps.CallsPerEvent` | hdmi2usbmon/events/events.py:173-176 | with no duplicates, each handler is called at most once per event, and only if it accepts |
| `DispatchProps.CallsPerHandler` | hdmi2usbmon/events/events.py:168-177 | with no duplicates, a registered handler's call count equals the number of queued events it accepts; an unregistered one gets none |
| `DispatchProps.RemovedHandlerGetsNoEvents` | hdmi2usbmon/events/events.py:128-130 | after a handler is removed, no later dispatch calls it |
| `DispatchProps.AddRemoveRoundTrip` | hdmi2usbmon/events/events.py:110-133 | adding a new handler at any position and then removing it gives back the original dispatcher and returns true |
| `DispatchProps.AddKeepsOrder` | hdmi2usbmon/events/events.py:111-116 | adding keeps the relative order of the handlers already registered |
| `DispatchProps.RemoveKeepsOrder` | hdmi2usbmon/events/events.py:128-130 | removing keeps the relative order of the remaining handlers |
| `DispatchProps.AddTwiceRejected` | hdmi2usbmon/events/events.py:110-118 | adding the same handler twice succeeds once, then fails with no change, and it is registered exactly once |
| `DispatchProps.ZeroPositionAppends` | hdmi2usbmon/events/events.py:106-116 | `at_pos=0` as written appends, while the documented placement puts the handler first |
| `DispatchProps.RegisteredHandlerCannotBeRemoved` | hdmi2usbmon/events/events.py:128-130 | as written, removing a just-registered handler raises, while the corrected removal empties the registry |
| `DispatchProps.RunKeepsNoDuplicates` | hdmi2usbmon/events/events.py:102-148 | any sequence of add, remove and send calls from a duplicate-free registry leaves it duplicate-free |
| `DispatchProps.SingleTagHandler` | hdmi2usbmon/events/events.py:78-82 | a handler built from one tag has exactly that tag as its filter |
| `DispatchProps.TagAndCatchAll` | hdmi2usbmon/events/events.py:84-90 | given a handler for one tag and a catch-all, an event with that tag is handled twice and an event with another tag once |
| `DispatchProps.TestHandlerAcceptsEvent` | tests/test_event.py:93-106 | a test handler accepts one test event exactly when the event's tag is the handler's tag |
| `DispatchProps.AcceptCountByTag` | tests/test_event.py:96-106 | a handler that accepts the `i`-th event exactly when the test's `i`-th tag is its tag accepts as many events as the test counts for that tag |
| `DispatchProps.TestHandlerAccepts` | tests/test_event.py:93-106 | each test handler accepts exactly the test events that carry its tag |
| `DispatchProps.CreateDispatcherWithHandlers` | tests/test_event.py:50-63 | a new dispatcher plus one `add_handler` per handler: the queue is empty, the registry duplicate-free, and distinct handlers are registered exactly in order |
| `DispatchProps.DispatchEach` | tests/test_event.py:95-107 | on a dispatcher whose queue is empty, as it is between the test's calls, one `dispatch_events(event)` call per event leaves the dispatcher as it was and makes exactly the calls of `OneByOne` |
| `DispatchProps.OneByOneIsDispatch` | tests/test_event.py:107 | dispatching events one call at a time makes the same calls as dispatching them together |
| `DispatchProps.DispatchTestCallsMatchCounts` | tests/test_event.py:93-113 | each test handler's callback count equals the test's own count for its tag |
| `DispatchProps.DispatchTestCounts` | tests/test_event.py:93-113 | for the ten test events the basic, general and error callbacks run 5, 2 and 3 times |
| `DispatchProps.DispatcherDispatchTest` | tests/test_event.py:93-113 | the whole test from its API calls: build the dispatcher with its three handlers, dispatch the ten events one at a time, and the basic, general and error callbacks run 5, 2 and 3 times |

## Left out

- `loop=True` mode of `dispatch_events`, and the `block`/`timeout` arguments of `put` and `get`. These are an endless, thread-oriented loop and blocking behaviour.
- The `queue.Full` branch of `send_event`. It cannot be reached with the default unbounded queue (see `Dispatch.NewDispatcher` below).
- `Dispatch.NewDispatcher`: the `qclass` and `hclass` parameters are fixed to `queue.Queue` and `list`. A bounded, LIFO or priority queue class would make `send_event` raise or return false on a full queue and would change the FIFO delivery order; neither is modelled. The model is also single-threaded, so events sent by other threads while the queue drains are left out (see `Dispatch.Drain`).
- `Dispatch.Drain`: the model is single-threaded. The drain loop re-reads `qsize()` on every pass (`hdmi2usbmon/events/events.py:168`), so the source also dispatches events that other threads send while it drains. Those events are not modelled.
- The `_class` argument of `create_event`. The core defines no `Event` subclass; the test subclasses only fix the type argument.
- Arbitrary `EventHandler` subclasses and the callable `func` of `EventTypeHandler`. Handling is recorded as a delivery; callbacks are foreign code.
- Exceptions raised by handlers. The code lets them propagate out of `dispatch_events`, and the model's handlers cannot fail.
- `Dispatch.DispatchEvents`: callbacks that call back into the dispatcher are not modelled. A `handle_event` that calls `send_event` has its event drained in the same `dispatch_events` call, because `qsize()` is re-read (`hdmi2usbmon/events/events.py:168`). One that calls `add_handler` or `remove_handler` changes the registry from the next event on, because the current event goes to the `tuple(self.handlerq)` snapshot (`hdmi2usbmon/events/events.py:173`). The model's callbacks have no effects, so the unchanged registry and the trace in its contract rely on that; the snapshot in `Dispatch.OfferEvent` only matters for such callbacks.
- The `isinstance` assertions on handlers and events. Dafny's types enforce them.
- `Events.NewEvent`: tag lists hold only strings, and payload values only integers and strings. Other Python objects are not modelled.
- `Handlers.NewTypeHandler`: states which tags the filter holds, not their order or repetition, since acceptance depends on membership alone.
- `Dispatch.AddHandler`: handlers are compared as whole records, `id` and filter together. Each Python handler object is assumed to carry its own unique `id`, so two records with the same `id` but different filters count as two different handlers.
- `Dispatch.AddHandler`: `at_pos` is `None`, a boolean or an integer. Other values that `int()` would convert (floats, numeric strings) are not modelled.
- Timestamps are mathematical reals, not IEEE doubles.
- `hdmi2usbmon/device.py` (socket and process helpers), `switch_ui.py`, `simple_switch_ui.py`, `logger_basic.py` and `event_logger.py`. These are I/O and user-interface glue.
- `hdmi2usbmon/status.py` and `hdmi2usbmon/api.py`. They are empty stubs.
- Status-line parsing and the state table. hdmi2usbmon has no status-line parser or state table: `hdmi2usbmon/status.py:6-17` declares only the empty `ChannelStatus` and `Hdmi2UsbStatus` records.

## Findings

| source | as written | input that shows it | evidently intended | confidence | as-written member | corrected member |
|---|---|---|---|---|---|---|
| hdmi2usbmon/events/events.py:18-31 | the non-copy branch computes the split tag list but never assigns `self.event_type`; because of `__slots__` the slot stays unset, so the copy branch (line 24) raises `AttributeError` on such an event too | `Event('general')` (lemma `Events.GeneralEventHasNoTags`): reading `event_type` raises, yet `tests/test_event.py:35` expects a list; `Event(Event('general'))` raises as well | `self.event_type = event_type` after the split | high, not executed | `Events.InitAsWritten` | `Events.NewEvent` |
| hdmi2usbmon/events/events.py:128-130 | `issubclass(handler, EventHandler)` is applied to an instance and raises before the deletion, unless assertions are disabled | remove a handler just added (lemma `DispatchProps.RegisteredHandlerCannotBeRemoved`) | `isinstance`, or no check: delete the handler and return true | high, not executed | `Dispatch.RemoveHandlerAsWritten` | `Dispatch.RemoveHandler` |
| hdmi2usbmon/events/events.py:111-116 | `at_pos=0` is falsy, so it appends | registry `[a]`, `add_handler(b, 0)` gives `[a, b]` (lemma `DispatchProps.ZeroPositionAppends`) | the docstring's "integer = insert at position": `[b, a]` | medium, not executed | `Dispatch.AddHandlerAsWritten` | `Dispatch.AddHandler` |

=== FILE: dispatch_props.dfy ===
/**
  Properties that relate several dispatcher operations: delivery order and
  membership, per-handler call counts, the registry round trip and its
  duplicate-freedom, and the scenarios the test suite exercises.
 */
module DispatchProps {
  import opened Wrappers
  import opened Events
  import opened Handlers
  import opened Dispatch

  // ----- Delivery order and membership -----

  /** FIFO: the deliveries of a longer queue are those of its front, then those of its back. */
  lemma {:induction false} DeliveriesAppend(q1: seq<Event>, q2: seq<Event>, hs: seq<Handler>)
    ensures Deliveries(q1 + q2, hs) == Deliveries(q1, hs) + Deliveries(q2, hs)
  {
    if |q2| == 0 {
      assert q1 + q2 == q1;
    } else {
      var q := q1 + q2;
      var init, last := q2[..|q2| - 1], q2[|q2| - 1];
      calc {
        Deliveries(q, hs);
        Deliveries(q[..|q| - 1], hs) + Accepted(q[|q| - 1], hs);
      == { assert q[..|q| - 1] == q1 + init; assert q[|q| - 1] == last; }
        Deliveries(q1 + init, hs) + Accepted(last, hs);
      == { DeliveriesAppend(q1, init, hs); }
        (Deliveries(q1, hs) + Deliveries(init, hs)) + Accepted(last, hs);
        Deliveries(q1, hs) + (Deliveries(init, hs) + Accepted(last, hs));
      == { assert Deliveries(q2, hs) == Deliveries(init, hs) + Accepted(last, hs); }
        Deliveries(q1, hs) + Deliveries(q2, hs);
      }
    }
  }

  /** `handle_event` is called for one event exactly on the registered handlers that accept it. */
  lemma {:induction false} AcceptedMembership(e: Event, hs: seq<Handler>, c: Delivery)
    ensures c in Accepted(e, hs) <==> c.event == e && c.handler in hs && Accepts(c.handler, e)
  {
    if |hs| > 0 {
      var init := hs[..|hs| - 1];
      AcceptedMembership(e, init, c);
      assert hs == init + [hs[|hs| - 1]];
    }
  }

  /** A pair is delivered exactly when its event was queued, its handler registered, and the handler accepts. */
  lemma {:induction false} DeliveryMembership(q: seq<Event>, hs: seq<Handler>, e: Event, h: Handler)
    ensures Delivery(e, h) in Deliveries(q, hs) <==> e in q && h in hs && Accepts(h, e)
  {
    if |q| > 0 {
      var init := q[..|q| - 1];
      DeliveryMembership(init, hs, e, h);
      AcceptedMembership(q[|q| - 1], hs, Delivery(e, h));
      assert q == init + [q[|q| - 1]];
    }
  }

  /** With the registry cleared by `remove_handler(None)`, no event reaches any handler. */
  lemma {:induction false} ClearedRegistryDeliversNothing(d: Dispatcher, q: seq<Event>)
    ensures Deliveries(q, RemoveHandler(d, None).next.handlers) == []
  {
    if |q| > 0 {
      ClearedRegistryDeliversNothing(d, q[..|q| - 1]);
    }
  }

  // ----- Call counts -----

  /** The number of `handle_event` calls on `h` in a trace. */
  function Calls(h: Handler, trace: seq<Delivery>): nat {
    if |trace| == 0 then 0
    else Calls(h, trace[..|trace| - 1]) + (if trace[|trace| - 1].handler == h then 1 else 0)
  }

  /** The number of queued events `h` accepts. */
  function AcceptCount(h: Handler, q: seq<Event>): nat {
    if |q| == 0 then 0
    else AcceptCount(h, q[..|q| - 1]) + (if Accepts(h, q[|q| - 1]) then 1 else 0)
  }

  lemma {:induction false} CallsAppend(h: Handler, t1: seq<Delivery>, t2: seq<Delivery>)
    ensures Calls(h, t1 + t2) == Calls(h, t1) + Calls(h, t2)
  {
    if |t2| == 0 {
      assert t1 + t2 == t1;
    } else {
      var t := t1 + t2;
      assert t[..|t| - 1] == t1 + t2[..|t2| - 1];
      CallsAppend(h, t1, t2[..|t2| - 1]);
    }
  }

  /** In a registry without duplicates, a handler is called at most once per event, and only if it accepts. */
  lemma {:induction false} CallsPerEvent(e: Event, hs: seq<Handler>, h: Handler)
    requires NoDuplicates(hs)
    ensures Calls(h, Accepted(e, hs)) == if h in hs && Accepts(h, e) then 1 else 0
  {
    if |hs| > 0 {
      var init := hs[..|hs| - 1];
      var last := hs[|hs| - 1];
      assert hs == init + [last];
      assert NoDuplicates(init);
      CallsPerEvent(e, init, h);
      var tail := if Accepts(last, e) then [Delivery(e, last)] else [];
      CallsAppend(h, Accepted(e, init), tail);
      assert Calls(h, tail) == if tail != [] && last == h then 1 else 0 by {
        if tail != [] {
          assert tail[..0] == [];
        }
      }
      if last == h {
        assert h !in init;
      }
    }
  }

  /**
    Each registered handler is called once per queued event it accepts, so
    `hcount` splits into per-handler counts; an unregistered handler is
    never called.
   */
  lemma {:induction false} CallsPerHandler(q: seq<Event>, hs: seq<Handler>, h: Handler)
    requires NoDuplicates(hs)
    ensures Calls(h, Deliveries(q, hs)) == if h in hs then AcceptCount(h, q) else 0
  {
    if |q| > 0 {
      var init := q[..|q| - 1];
      CallsPerHandler(init, hs, h);
      CallsAppend(h, Deliveries(init, hs), Accepted(q[|q| - 1], hs));
      CallsPerEvent(q[|q| - 1], hs, h);
    }
  }

  /** After `remove_handler(h)` the handler receives no further events. */
  lemma RemovedHandlerGetsNoEvents(d: Dispatcher, h: Handler, q: seq<Event>)
    requires NoDuplicates(d.handlers)
    ensures Calls(h, Deliveries(q, RemoveHandler(d, Some(h)).next.handlers)) == 0
  {
    CallsPerHandler(q, RemoveHandler(d, Some(h)).next.handlers, h);
  }

  // ----- Registry round trip and order -----

  lemma {:induction false} IndexOfAt(s: seq<Handler>, p: nat, x: Handler)
    requires p < |s| && s[p] == x && x !in s[..p]
    ensures IndexOf(s, x) == p
  {
    if p > 0 {
      assert s[0] in s[..p];
      assert s[1..][..p - 1] == s[..p][1..];
      IndexOfAt(s[1..], p - 1, x);
    }
  }

  /** Deleting what was just inserted at `p` gives back the original sequence. */
  lemma InsertThenDelete(s: seq<Handler>, p: nat, h: Handler)
    requires p <= |s|
    ensures Insert(s, p, h)[..p] == s[..p]
    ensures Insert(s, p, h)[p] == h
    ensures Insert(s, p, h)[..p] + Insert(s, p, h)[p + 1..] == s
  {
    var r := Insert(s, p, h);
    assert r[..p] == s[..p];
    assert r[p + 1..] == s[p..];
    assert s[..p] + s[p..] == s;
  }

  /** Adding a new handler and removing it again gives back the dispatcher unchanged. */
  lemma AddRemoveRoundTrip(d: Dispatcher, h: Handler, at: AtPos)
    requires h !in d.handlers
    ensures RemoveHandler(AddHandler(d, h, at).next, Some(h)) == Outcome(d, true)
  {
    var s, p := d.handlers, Slot(|d.handlers|, at);
    var added := AddHandler(d, h, at).next;
    assert added == d.(handlers := Insert(s, p, h));
    InsertThenDelete(s, p, h);
    assert h !in s[..p];
    IndexOfAt(Insert(s, p, h), p, h);
    assert RemoveAt(Insert(s, p, h), p) == s;
  }

  lemma {:induction false} EraseAppend(s: seq<Handler>, t: seq<Handler>, x: Handler)
    ensures Erase(s + t, x) == Erase(s, x) + Erase(t, x)
  {
    if |s| > 0 {
      assert (s + t)[1..] == s[1..] + t;
      EraseAppend(s[1..], t, x);
    } else {
      assert s + t == t;
    }
  }

  lemma {:induction false} EraseAbsent(s: seq<Handler>, x: Handler)
    requires x !in s
    ensures Erase(s, x) == s
  {
    if |s| > 0 {
      EraseAbsent(s[1..], x);
      assert [s[0]] + s[1..] == s;
    }
  }

  lemma EraseSingle(h: Handler)
    ensures Erase([h], h) == []
  {
    assert [h][1..] == [];
  }

  /** Erasing a handler that occurs once, between `pre` and `post`, leaves `pre + post`. */
  lemma EraseAround(pre: seq<Handler>, post: seq<Handler>, h: Handler)
    requires h !in pre && h !in post
    ensures Erase(pre + [h] + post, h) == pre + post
  {
    calc {
      Erase(pre + [h] + post, h);
    == { EraseAppend(pre + [h], post, h); }
      Erase(pre + [h], h) + Erase(post, h);
    == { EraseAppend(pre, [h], h); }
      Erase(pre, h) + Erase([h], h) + Erase(post, h);
    == { EraseAbsent(pre, h); EraseAbsent(post, h); EraseSingle(h); }
      pre + [] + post;
    == { assert pre + [] == pre; }
      pre + post;
    }
  }

  /** `add_handler` keeps the relative order of the handlers already registered. */
  lemma AddKeepsOrder(d: Dispatcher, h: Handler, at: AtPos)
    requires h !in d.handlers
    ensures Erase(AddHandler(d, h, at).next.handlers, h) == d.handlers
  {
    var p := Slot(|d.handlers|, at);
    var pre, post := d.handlers[..p], d.handlers[p..];
    assert AddHandler(d, h, at).next.handlers == pre + [h] + post;
    assert pre + post == d.handlers;
    EraseAround(pre, post, h);
  }

  /** `remove_handler` keeps the relative order of the handlers that remain. */
  lemma RemoveKeepsOrder(d: Dispatcher, h: Handler)
    requires NoDuplicates(d.handlers) && h in d.handlers
    ensures RemoveHandler(d, Some(h)).next.handlers == Erase(d.handlers, h)
  {
    var i := IndexOf(d.handlers, h);
    var pre, post := d.handlers[..i], d.handlers[i + 1..];
    assert d.handlers == pre + [h] + post;
    assert RemoveHandler(d, Some(h)).next.handlers == pre + post;
    EraseAround(pre, post, h);
  }

  /** Registering the same handler twice leaves it registered once, and the second call fails. */
  lemma AddTwiceRejected(d: Dispatcher, h: Handler, at1: AtPos, at2: AtPos)
    requires h !in d.handlers
    ensures var first := AddHandler(d, h, at1);
            var second := AddHandler(first.next, h, at2);
            first.ok && !second.ok && second.next == first.next
            && multiset(second.next.handlers)[h] == 1
  {
  }

  /**
    `add_handler(h, 0)` as written appends, while the docstring's "integer =
    insert at position" puts the handler first.
   */
  lemma ZeroPositionAppends(a: Handler, b: Handler)
    requires a != b
    ensures AddHandlerAsWritten(Dispatcher([], [a]), b, Index(0)).next.handlers == [a, b]
    ensures AddHandler(Dispatcher([], [a]), b, Index(0)).next.handlers == [b, a]
  {
  }

  /**
    As written, a handler that was registered cannot be removed: the call
    raises, while the corrected removal empties the registry again.
   */
  lemma RegisteredHandlerCannotBeRemoved(h: Handler)
    ensures var d := AddHandler(NewDispatcher(), h, Unset).next;
            && RemoveHandlerAsWritten(d, Some(h)) == Failure(NotAClass)
            && RemoveHandler(d, Some(h)) == Outcome(NewDispatcher(), true)
  {
    AddRemoveRoundTrip(NewDispatcher(), h, Unset);
  }

  // ----- Duplicate-freedom over any sequence of registry and queue calls -----

  datatype Command = Add(handler: Handler, at: AtPos) | Remove(target: Option<Handler>) | Send(event: Option<Event>)

  function Step(d: Dispatcher, c: Command): Dispatcher {
    match c
    case Add(h, at) => AddHandler(d, h, at).next
    case Remove(t) => RemoveHandler(d, t).next
    case Send(e) => SendEvent(d, e).next
  }

  function Run(d: Dispatcher, cmds: seq<Command>): Dispatcher
    decreases |cmds|
  {
    if |cmds| == 0 then d else Run(Step(d, cmds[0]), cmds[1..])
  }

  /** The registry never holds a handler twice, whatever calls are made from a fresh dispatcher. */
  lemma {:induction false} RunKeepsNoDuplicates(d: Dispatcher, cmds: seq<Command>)
    requires NoDuplicates(d.handlers)
    ensures NoDuplicates(Run(d, cmds).handlers)
    decreases |cmds|
  {
    if |cmds| > 0 {
      RunKeepsNoDuplicates(Step(d, cmds[0]), cmds[1..]);
    }
  }

  // ----- Scenarios -----

  /** The deliveries of a single event to a two-handler registry. */
  lemma DeliveriesOfOneToTwo(e: Event, a: Handler, b: Handler)
    ensures |Deliveries([e], [a, b])| == (if Accepts(a, e) then 1 else 0) + (if Accepts(b, e) then 1 else 0)
  {
    assert [e][..0] == [];
    assert Deliveries([e], [a, b]) == Accepted(e, [a, b]);
    assert [a, b][..1] == [a];
    assert [a][..0] == [];
    assert |Accepted(e, [a])| == if Accepts(a, e) then 1 else 0;
  }

  lemma SingleTagHandler(id: nat, tag: string)
    ensures NewTypeHandler(id, [Single(tag)]).filterOnly == [tag]
  {
    assert [Single(tag)][1..] == [];
    assert Flatten([Single(tag)]) == [tag] + Flatten([]);
  }

  /**
    A handler filtering on one tag and a catch-all: an event with that tag
    reaches both, an event with another single tag only the catch-all.
   */
  lemma TagAndCatchAll(tag: string, other: string, now: real)
    requires DelimiterFree(tag) && DelimiterFree(other) && tag != other
    ensures var hs := [NewTypeHandler(1, [Single(tag)]), NewTypeHandler(2, [])];
            && |Deliveries([NewEvent(TagString(tag), NoData, None, now)], hs)| == 2
            && |Deliveries([NewEvent(TagString(other), NoData, None, now)], hs)| == 1
  {
    var tagH, allH := NewTypeHandler(1, [Single(tag)]), NewTypeHandler(2, []);
    SingleTagHandler(1, tag);
    var hit := NewEvent(TagString(tag), NoData, None, now);
    var miss := NewEvent(TagString(other), NoData, None, now);
    assert hit.tags[0] == tag;
    DeliveriesOfOneToTwo(hit, tagH, allH);
    DeliveriesOfOneToTwo(miss, tagH, allH);
  }

  /** The tag of the `index`-th event in the dispatch test: even is basic, else multiples of 3 are general, else error. */
  function TestTag(index: nat): string {
    if index % 2 == 0 then "basic" else if index % 3 == 0 then "general" else "error"
  }

  /** The `index`-th event of the dispatch test (`BasicEvent()`, `Event('general')` or `ErrorEvent(data=...)`). */
  function TestEvent(index: nat, now: real): Event {
    var tag := TestTag(index);
    var data := if tag == "error" then Fields(map["error" := IntValue(index)]) else NoData;
    NewEvent(TagString(tag), data, None, now)
  }

  /** The first `n` events of the dispatch test, in the order the test sends them. */
  function TestEvents(n: nat, now: real): (q: seq<Event>)
    ensures |q| == n
    ensures forall i :: 0 <= i < n ==> q[i] == TestEvent(i, now)
  {
    seq(n, (i: int) requires 0 <= i => TestEvent(i, now))
  }

  /** The test's expected count for a tag: how many of the first `n` indices produce it. */
  function TagCount(tag: string, n: nat): nat {
    if n == 0 then 0 else TagCount(tag, n - 1) + (if TestTag(n - 1) == tag then 1 else 0)
  }

  /** The tag of the `k`-th handler the test registers. */
  function HandlerTag(k: nat): string {
    if k == 0 then "basic" else if k == 1 then "general" else "error"
  }

  /** `EventTypeHandler(callback, tag)` for the `k`-th of the test's callbacks. */
  function TestHandler(k: nat): Handler {
    NewTypeHandler(k + 1, [Single(HandlerTag(k))])
  }

  /** The three handlers the test registers, one per tag. */
  function TestHandlers(): seq<Handler> {
    [TestHandler(0), TestHandler(1), TestHandler(2)]
  }

  /** The test calls `dispatch_events(event)` once per event; that is one dispatch of them all. */
  function OneByOne(q: seq<Event>, hs: seq<Handler>): seq<Delivery> {
    if |q| == 0 then [] else OneByOne(q[..|q| - 1], hs) + Deliveries([q[|q| - 1]], hs)
  }

  /** `add_handler(handler)` of a new handler appends it and returns true. */
  lemma AddHandlerAppends(d: Dispatcher, h: Handler)
    requires h !in d.handlers
    ensures AddHandler(d, h, Unset) == Outcome(d.(handlers := d.handlers + [h]), true)
  {
    var s := d.handlers;
    assert Insert(s, |s|, h) == s + [h];
  }

  /**
    `create_dispatcher_with_handlers`: a new dispatcher, then `add_handler(handler)`
    for each handler in turn. The registry is always duplicate-free, and a
    list of distinct handlers is registered exactly, in order.
   */
  method CreateDispatcherWithHandlers(handlers: seq<Handler>) returns (d: Dispatcher)
    ensures d.queue == [] && NoDuplicates(d.handlers)
    ensures NoDuplicates(handlers) ==> d.handlers == handlers
  {
    d := NewDispatcher();
    for j := 0 to |handlers|
      invariant d.queue == [] && NoDuplicates(d.handlers)
      invariant NoDuplicates(handlers) ==> d.handlers == handlers[..j]
    {
      if NoDuplicates(handlers) {
        assert handlers[j] !in handlers[..j];
        AddHandlerAppends(d, handlers[j]);
      }
      var o := AddHandler(d, handlers[j], Unset);
      d := o.next;
      assert handlers[..j + 1] == handlers[..j] + [handlers[j]];
    }
    assert handlers[..|handlers|] == handlers;
  }

  /**
    The test's loop: `dispatch_events(event)` once per event on a dispatcher
    whose queue is empty; the calls made are `OneByOne`.
   */
  method DispatchEach(d: Dispatcher, q: seq<Event>) returns (next: Dispatcher, trace: seq<Delivery>)
    requires d.queue == []
    ensures next == d
    ensures trace == OneByOne(q, d.handlers)
  {
    next, trace := d, [];
    for j := 0 to |q|
      invariant next == d
      invariant trace == OneByOne(q[..j], d.handlers)
    {
      var qcount, hcount, calls;
      assert Sendable([Some(q[j])]) == [q[j]];
      next, qcount, hcount, calls := DispatchEvents(next, [Some(q[j])]);
      assert q[..j + 1][..j] == q[..j];
      trace := trace + calls;
    }
    assert q[..|q|] == q;
  }

  lemma {:induction false} OneByOneIsDispatch(q: seq<Event>, hs: seq<Handler>)
    ensures OneByOne(q, hs) == Deliveries(q, hs)
  {
    if |q| > 0 {
      OneByOneIsDispatch(q[..|q| - 1], hs);
      DeliveriesAppend(q[..|q| - 1], [q[|q| - 1]], hs);
      assert q[..|q| - 1] + [q[|q| - 1]] == q;
    }
  }

  lemma TestEventTags(index: nat, now: real)
    ensures TestEvent(index, now).tags == [TestTag(index)]
  {
    var tag := TestTag(index);
    assert tag == "basic" || tag == "general" || tag == "error";
    assert DelimiterFree(tag);
  }

  /**
    The counting step of the test, for any queue and any tag: a handler that
    accepts the `i`-th event exactly when `TestTag(i)` is `tag` accepts
    `TagCount(tag, |q|)` events.
   */
  lemma {:induction false} AcceptCountByTag(h: Handler, q: seq<Event>, tag: string)
    requires forall i :: 0 <= i < |q| ==> (Accepts(h, q[i]) <==> TestTag(i) == tag)
    ensures AcceptCount(h, q) == TagCount(tag, |q|)
  {
    if |q| > 0 {
      var init := q[..|q| - 1];
      assert forall i :: 0 <= i < |init| ==> init[i] == q[i];
      AcceptCountByTag(h, init, tag);
    }
  }

  /** Handler `k` accepts the `index`-th test event exactly when the event carries the handler's tag. */
  lemma TestHandlerAcceptsEvent(k: nat, index: nat, now: real)
    ensures Accepts(TestHandler(k), TestEvent(index, now)) <==> TestTag(index) == HandlerTag(k)
  {
    SingleTagHandler(k + 1, HandlerTag(k));
    TestEventTags(index, now);
  }

  /** Handler `k` accepts exactly the events carrying its own tag. */
  lemma TestHandlerAccepts(k: nat, n: nat, now: real)
    ensures AcceptCount(TestHandler(k), TestEvents(n, now)) == TagCount(HandlerTag(k), n)
  {
    var h, q := TestHandler(k), TestEvents(n, now);
    forall i | 0 <= i < |q|
      ensures Accepts(h, q[i]) <==> TestTag(i) == HandlerTag(k)
    {
      TestHandlerAcceptsEvent(k, i, now);
    }
    AcceptCountByTag(h, q, HandlerTag(k));
  }

  /** The three test handlers are distinct: their ids are 1, 2 and 3. */
  lemma TestHandlersDistinct()
    ensures NoDuplicates(TestHandlers())
  {
    var hs := TestHandlers();
    forall i, j | 0 <= i < j < |hs|
      ensures hs[i] != hs[j]
    {
      assert hs[i].id == i + 1 && hs[j].id == j + 1;
    }
  }

  /** Dispatching the test's events one at a time calls each handler once per event with its tag. */
  lemma DispatchTestCallsMatchCounts(n: nat, now: real, k: nat)
    requires k < 3
    ensures Calls(TestHandlers()[k], OneByOne(TestEvents(n, now), TestHandlers())) == TagCount(HandlerTag(k), n)
  {
    var q, hs := TestEvents(n, now), TestHandlers();
    OneByOneIsDispatch(q, hs);
    assert hs[k] == TestHandler(k);
    TestHandlersDistinct();
    CallsPerHandler(q, hs, hs[k]);
    TestHandlerAccepts(k, n, now);
  }

  /**
    The dispatch test: ten events dispatched one at a time to the basic,
    general and error handlers; each handler's callback count equals the
    test's own count of events with its tag (5, 2 and 3).
   */
  lemma DispatchTestCounts(now: real)
    ensures var trace := OneByOne(TestEvents(10, now), TestHandlers());
            && Calls(TestHandlers()[0], trace) == 5
            && Calls(TestHandlers()[1], trace) == 2
            && Calls(TestHandlers()[2], trace) == 3
  {
    DispatchTestCallsMatchCounts(10, now, 0);
    DispatchTestCallsMatchCounts(10, now, 1);
    DispatchTestCallsMatchCounts(10, now, 2);
    assert TagCount("basic", 10) == 5;
    assert TagCount("general", 10) == 2;
    assert TagCount("error", 10) == 3;
  }

  /**
    `test_dispatcher_dispatch`: build the dispatcher with its three handlers,
    dispatch the ten events one call at a time, and count each callback.
   */
  method DispatcherDispatchTest(now: real) returns (basic: nat, general: nat, error: nat)
    ensures basic == 5 && general == 2 && error == 3
  {
    TestHandlersDistinct();
    var d := CreateDispatcherWithHandlers(TestHandlers());
    var trace;
    d, trace := DispatchEach(d, TestEvents(10, now));
    DispatchTestCounts(now);
    basic, general, error := Calls(TestHandler(0), trace), Calls(TestHandler(1), trace), Calls(TestHandler(2), trace);
  }
}

=== FILE: dispatcher.dfy ===
/**
  `EventDispatcher` of hdmi2usbmon/events/events.py: an ordered handler
  registry without duplicates and a FIFO event queue.  The queue is
  unbounded (`queue.Queue()` with no maximum size), so `put` never raises
  `queue.Full`.  Each operation returns the new dispatcher with its result.
 */
module Dispatch {
  import opened Wrappers
  import opened Events
  import opened Handlers

  datatype Dispatcher = Dispatcher(queue: seq<Event>, handlers: seq<Handler>)

  /** The dispatcher after an operation, with the boolean the operation returns. */
  datatype Outcome = Outcome(next: Dispatcher, ok: bool)

  /** One `handler.handle_event(event)` call made by dispatch. */
  datatype Delivery = Delivery(event: Event, handler: Handler)

  /** The `at_pos` argument: `None`, a boolean, or an integer. */
  datatype AtPos = Unset | Flag(b: bool) | Index(i: int)

  /** The exception `issubclass` raises when handed an instance rather than a class. */
  datatype RemoveError = NotAClass

  predicate NoDuplicates<T(==)>(s: seq<T>) {
    forall i, j :: 0 <= i < j < |s| ==> s[i] != s[j]
  }

  /** `s` with every occurrence of `x` taken out, the rest in order. */
  function Erase(s: seq<Handler>, x: Handler): (r: seq<Handler>)
    ensures x !in r
    ensures |r| <= |s|
  {
    if |s| == 0 then []
    else if s[0] == x then Erase(s[1..], x)
    else [s[0]] + Erase(s[1..], x)
  }

  /** `EventDispatcher()`: empty queue, empty registry. */
  function NewDispatcher(): (d: Dispatcher)
    ensures |d.queue| == 0 && |d.handlers| == 0 && NoDuplicates(d.handlers)
  {
    Dispatcher([], [])
  }

  /** Python's truthiness of `at_pos`: `None`, `False` and `0` are falsy. */
  predicate Falsy(at: AtPos) {
    at == Unset || at == Flag(false) || at == Index(0)
  }

  /**
    The index `list.insert(i, x)` puts `x` at in a list of length `n`:
    a negative `i` counts from the end, and the result is clamped to `0..n`.
   */
  function ListInsertIndex(n: nat, i: int): (p: nat)
    ensures p <= n
    ensures 0 <= i <= n ==> p == i
    ensures i < 0 && i + n >= 0 ==> p == i + n
    ensures i > n ==> p == n
    ensures i + n < 0 ==> p == 0
  {
    if i < 0 then (if i + n < 0 then 0 else i + n)
    else if i > n then n
    else i
  }

  /**
    Where `add_handler` places a new handler in a registry of `n`, as the
    docstring describes it: `None`/`False` append, `True` inserts at the
    front, an integer inserts at that position (so `0` is the front too).
   */
  function Slot(n: nat, at: AtPos): (p: nat)
    ensures p <= n
  {
    match at
    case Unset => n
    case Flag(b) => if b then 0 else n
    case Index(i) => ListInsertIndex(n, i)
  }

  /** The placement as written: every falsy `at_pos`, `0` included, appends. */
  function SlotAsWritten(n: nat, at: AtPos): (p: nat)
    ensures p <= n
  {
    if Falsy(at) then n
    else if at == Flag(true) then 0
    else ListInsertIndex(n, at.i)
  }

  function Insert<T>(s: seq<T>, p: nat, x: T): seq<T>
    requires p <= |s|
  {
    s[..p] + [x] + s[p..]
  }

  /** Inserting a new handler grows the registry by exactly that handler and keeps it duplicate-free. */
  lemma InsertFacts(s: seq<Handler>, p: nat, h: Handler)
    requires p <= |s| && h !in s
    ensures |Insert(s, p, h)| == |s| + 1 && Insert(s, p, h)[p] == h
    ensures multiset(Insert(s, p, h)) == multiset(s) + multiset{h}
    ensures NoDuplicates(s) ==> NoDuplicates(Insert(s, p, h))
  {
    assert s == s[..p] + s[p..];
    var r := Insert(s, p, h);
    if NoDuplicates(s) {
      forall i, j | 0 <= i < j < |r|
        ensures r[i] != r[j]
      {
        if i != p && j != p {
          var i', j' := if i < p then i else i - 1, if j < p then j else j - 1;
          assert r[i] == s[i'] && r[j] == s[j'];
        } else if i == p {
          assert r[j] == s[j - 1];
        } else {
          assert r[i] == s[i];
        }
      }
    }
  }

  /** Registration at a given index unless the handler is already registered. */
  function AddAt(d: Dispatcher, h: Handler, p: nat): (o: Outcome)
    requires p <= |d.handlers|
    ensures o.next.queue == d.queue
    ensures o.ok <==> h !in d.handlers
    ensures !o.ok ==> o.next == d
    ensures o.ok ==> |o.next.handlers| == |d.handlers| + 1 && o.next.handlers[p] == h
    ensures o.ok ==> multiset(o.next.handlers) == multiset(d.handlers) + multiset{h}
    ensures h in o.next.handlers
    ensures NoDuplicates(d.handlers) ==> NoDuplicates(o.next.handlers)
  {
    if h in d.handlers then Outcome(d, false)
    else
      InsertFacts(d.handlers, p, h);
      Outcome(d.(handlers := Insert(d.handlers, p, h)), true)
  }

  /** `add_handler(handler, at_pos)` with the documented placement. */
  function AddHandler(d: Dispatcher, h: Handler, at: AtPos): (o: Outcome)
    ensures o.next.queue == d.queue
    ensures o.ok <==> h !in d.handlers
    ensures !o.ok ==> o.next == d
    ensures o.ok ==> |o.next.handlers| == |d.handlers| + 1
    ensures o.ok ==> multiset(o.next.handlers) == multiset(d.handlers) + multiset{h}
    ensures NoDuplicates(d.handlers) ==> NoDuplicates(o.next.handlers)
    ensures o.ok && (at == Unset || at == Flag(false)) ==> o.next.handlers[|d.handlers|] == h
    ensures o.ok && (at == Flag(true) || at == Index(0)) ==> o.next.handlers[0] == h
    ensures o.ok && at.Index? && 0 <= at.i <= |d.handlers| ==> o.next.handlers[at.i] == h
    ensures o.ok && at.Index? && at.i > |d.handlers| ==> o.next.handlers[|d.handlers|] == h
    ensures o.ok && at.Index? && -|d.handlers| <= at.i < 0 ==> o.next.handlers[at.i + |d.handlers|] == h
    ensures o.ok && at.Index? && at.i < -|d.handlers| ==> o.next.handlers[0] == h
  {
    AddAt(d, h, Slot(|d.handlers|, at))
  }

  /** `add_handler` as written, where `at_pos=0` is falsy and appends. */
  function AddHandlerAsWritten(d: Dispatcher, h: Handler, at: AtPos): (o: Outcome)
    ensures o.ok <==> h !in d.handlers
    ensures o.ok ==> |o.next.handlers| == |d.handlers| + 1
    ensures o.ok && Falsy(at) ==> o.next.handlers[|d.handlers|] == h
    ensures at == Index(0) ==> o == AddHandler(d, h, Unset)
    ensures at != Index(0) ==> o == AddHandler(d, h, at)
  {
    AddAt(d, h, SlotAsWritten(|d.handlers|, at))
  }

  /** The first position of `x` in `s`. */
  function IndexOf<T(==)>(s: seq<T>, x: T): (i: nat)
    requires x in s
    ensures i < |s| && s[i] == x && x !in s[..i]
  {
    if s[0] == x then 0 else 1 + IndexOf(s[1..], x)
  }

  lemma DeleteFacts(s: seq<Handler>, i: nat)
    requires i < |s|
    ensures |s[..i] + s[i + 1..]| == |s| - 1
    ensures multiset(s[..i] + s[i + 1..]) == multiset(s) - multiset{s[i]}
    ensures NoDuplicates(s) ==> NoDuplicates(s[..i] + s[i + 1..]) && s[i] !in s[..i] + s[i + 1..]
  {
    var r := s[..i] + s[i + 1..];
    assert s == s[..i] + [s[i]] + s[i + 1..];
    if NoDuplicates(s) {
      forall a, b | 0 <= a < b < |r|
        ensures r[a] != r[b]
      {
        var a', b' := if a < i then a else a + 1, if b < i then b else b + 1;
        assert r[a] == s[a'] && r[b] == s[b'];
      }
      forall a | 0 <= a < |r|
        ensures r[a] != s[i]
      {
        assert r[a] == s[if a < i then a else a + 1];
      }
    }
  }

  /** `del s[i]`: the element at `i` goes, the others keep their order. */
  function RemoveAt(s: seq<Handler>, i: nat): (r: seq<Handler>)
    requires i < |s|
    ensures |r| == |s| - 1
    ensures multiset(r) == multiset(s) - multiset{s[i]}
    ensures NoDuplicates(s) ==> NoDuplicates(r) && s[i] !in r
  {
    DeleteFacts(s, i);
    s[..i] + s[i + 1..]
  }

  /** `remove_handler(handler)` without the failing `issubclass` assertion. */
  function RemoveHandler(d: Dispatcher, h: Option<Handler>): (o: Outcome)
    ensures o.next.queue == d.queue
    ensures h.None? ==> o.ok && o.next.handlers == []
    ensures h.Some? ==> (o.ok <==> h.value in d.handlers)
    ensures h.Some? && !o.ok ==> o.next == d
    ensures h.Some? && o.ok ==> |o.next.handlers| == |d.handlers| - 1
    ensures h.Some? && o.ok ==> multiset(o.next.handlers) == multiset(d.handlers) - multiset{h.value}
    ensures NoDuplicates(d.handlers) ==> NoDuplicates(o.next.handlers)
    ensures NoDuplicates(d.handlers) && h.Some? ==> h.value !in o.next.handlers
  {
    match h
    case None => Outcome(d.(handlers := []), true)
    case Some(x) =>
      if x in d.handlers then Outcome(d.(handlers := RemoveAt(d.handlers, IndexOf(d.handlers, x))), true)
      else Outcome(d, false)
  }

  /**
    `remove_handler` as written: for a registered handler,
    `issubclass(handler, EventHandler)` raises before the deletion, since a
    handler is an instance and not a class.
   */
  function RemoveHandlerAsWritten(d: Dispatcher, h: Option<Handler>): (r: Result<Outcome, RemoveError>)
    ensures r.Failure? <==> h.Some? && h.value in d.handlers
    ensures r.Success? ==> r.value == RemoveHandler(d, h)
  {
    match h
    case None => Success(RemoveHandler(d, h))
    case Some(x) => if x in d.handlers then Failure(NotAClass) else Success(RemoveHandler(d, h))
  }

  /** `send_event(event)`: `None` is refused; an event joins the tail of the queue. */
  function SendEvent(d: Dispatcher, ev: Option<Event>): (o: Outcome)
    ensures o.ok <==> ev.Some?
    ensures o.next.handlers == d.handlers
    ensures !o.ok ==> o.next == d
    ensures o.ok ==> o.next.queue == d.queue + [ev.value]
  {
    match ev
    case None => Outcome(d, false)
    case Some(e) => Outcome(d.(queue := d.queue + [e]), true)
  }

  /** The events `dispatch_events` enqueues: the arguments before the first `None`. */
  function Sendable(events: seq<Option<Event>>): (r: seq<Event>)
    ensures |r| <= |events|
  {
    if |events| == 0 || events[0].None? then []
    else [events[0].value] + Sendable(events[1..])
  }

  /** `Sendable` is the longest prefix of the arguments free of `None`, unwrapped. */
  lemma {:induction false} SendableIsPrefix(events: seq<Option<Event>>)
    ensures var r := Sendable(events);
            && (forall i :: 0 <= i < |r| ==> events[i] == Some(r[i]))
            && (|r| < |events| ==> events[|r|].None?)
  {
    if |events| > 0 && events[0].Some? {
      SendableIsPrefix(events[1..]);
    }
  }

  /** The deliveries of one event, handlers in registry order. */
  function Accepted(e: Event, hs: seq<Handler>): seq<Delivery> {
    if |hs| == 0 then []
    else
      var h := hs[|hs| - 1];
      Accepted(e, hs[..|hs| - 1]) + (if Accepts(h, e) then [Delivery(e, h)] else [])
  }

  /** The deliveries of a queue, events in FIFO order. */
  function Deliveries(q: seq<Event>, hs: seq<Handler>): seq<Delivery> {
    if |q| == 0 then []
    else Deliveries(q[..|q| - 1], hs) + Accepted(q[|q| - 1], hs)
  }

  /** One event offered to every handler of a registry snapshot, in order. */
  method OfferEvent(event: Event, snapshot: seq<Handler>) returns (count: nat, calls: seq<Delivery>)
    ensures calls == Accepted(event, snapshot)
    ensures count == |calls|
  {
    count := 0;
    calls := [];
    for j := 0 to |snapshot|
      invariant calls == Accepted(event, snapshot[..j]) && count == |calls|
    {
      assert snapshot[..j + 1][..j] == snapshot[..j];
      var accepted := AcceptEvent(snapshot[j], event);
      if accepted {
        calls := calls + [Delivery(event, snapshot[j])];
        count := count + 1;
      }
    }
    assert snapshot[..|snapshot|] == snapshot;
  }

  /** The draining loop of `dispatch_events`: `get` from the head until the queue is empty. */
  method Drain(d: Dispatcher) returns (next: Dispatcher, hcount: nat, trace: seq<Delivery>)
    ensures next.queue == [] && next.handlers == d.handlers
    ensures trace == Deliveries(d.queue, d.handlers)
    ensures hcount == |trace|
  {
    var cur := d;
    hcount := 0;
    trace := [];
    ghost var k := 0;
    while |cur.queue| > 0
      invariant 0 <= k <= |d.queue| && cur.queue == d.queue[k..] && cur.handlers == d.handlers
      invariant trace == Deliveries(d.queue[..k], d.handlers) && hcount == |trace|
      decreases |cur.queue|
    {
      var event := cur.queue[0];
      cur := cur.(queue := cur.queue[1..]);
      var count, calls := OfferEvent(event, cur.handlers);
      assert d.queue[..k + 1][..k] == d.queue[..k];
      trace := trace + calls;
      hcount := hcount + count;
      k := k + 1;
    }
    assert d.queue[..k] == d.queue;
    next := cur;
  }

  /** Enqueueing stops at a `None` argument or at the end of the arguments. */
  lemma SendableStops(events: seq<Option<Event>>, i: nat)
    requires i <= |events| && (i == |events| || events[i].None?)
    ensures Sendable(events[i..]) == []
  {
  }

  /** An enqueued argument moves from the rest of the arguments to the events sent so far. */
  lemma SendableStep(events: seq<Option<Event>>, i: nat, sent: seq<Event>)
    requires i < |events| && events[i].Some?
    requires Sendable(events) == sent + Sendable(events[i..])
    ensures Sendable(events) == (sent + [events[i].value]) + Sendable(events[i + 1..])
  {
    assert events[i..][1..] == events[i + 1..];
    assert Sendable(events[i..]) == [events[i].value] + Sendable(events[i + 1..]);
  }

  /** The enqueueing loop of `dispatch_events`: `send_event` each argument, stopping at the first refusal. */
  method Enqueue(d: Dispatcher, events: seq<Option<Event>>) returns (next: Dispatcher, qcount: nat)
    ensures next.queue == d.queue + Sendable(events) && next.handlers == d.handlers
    ensures qcount == |Sendable(events)|
  {
    next := d;
    qcount := 0;
    ghost var sent: seq<Event> := [];
    var i := 0;
    while i < |events|
      invariant 0 <= i <= |events|
      invariant qcount == |sent| && next.handlers == d.handlers
      invariant next.queue == d.queue + sent
      invariant Sendable(events) == sent + Sendable(events[i..])
    {
      var o := SendEvent(next, events[i]);
      if !o.ok {
        SendableStops(events, i);
        break;
      }
      SendableStep(events, i, sent);
      next := o.next;
      sent := sent + [events[i].value];
      qcount := qcount + 1;
      i := i + 1;
    }
    if i == |events| {
      SendableStops(events, i);
    }
  }

  /**
    Non-looping `dispatch_events(*events)`: enqueue the arguments until one is
    refused, then drain the queue.  Returns `(qcount, hcount)` together with
    the handler calls made.
   */
  method DispatchEvents(d: Dispatcher, events: seq<Option<Event>>)
    returns (next: Dispatcher, qcount: nat, hcount: nat, trace: seq<Delivery>)
    ensures qcount == |Sendable(events)|
    ensures next.queue == [] && next.handlers == d.handlers
    ensures trace == Deliveries(d.queue + Sendable(events), d.handlers)
    ensures hcount == |trace|
  {
    var queued;
    queued, qcount := Enqueue(d, events);
    next, hcount, trace := Drain(queued);
  }
}

=== FILE: events.dfy ===
/**
  The `Event` record of hdmi2usbmon/events/events.py: a timestamp, a list of
  type tags and an opaque payload.  The wall clock (`time.time()`) is a
  parameter `now` of the constructor.
 */
module Events {
  import opened Wrappers

  /** A payload value as the tests use them: integers and strings. */
  datatype Value = IntValue(i: int) | StrValue(s: string)

  /** The optional `data` argument: `None`, or a dictionary. */
  datatype Payload = NoData | Fields(entries: map<string, Value>)

  datatype Event = Event(timestamp: real, tags: seq<string>, data: Payload)

  /**
    The first constructor argument: absent, an event of type `E` to copy, a
    tag string, or a tag list.
   */
  datatype TypeArg<E> = NoType | Copy(source: E) | TagString(s: string) | TagList(tags: seq<string>)

  /** `Event.DEFAULT_EVENT_TYPE` */
  const DefaultEventType: string := "basic"

  /** The separator of a tag string. */
  const Delimiter: char := ','

  predicate DelimiterFree(s: string) {
    Delimiter !in s
  }

  predicate AllDelimiterFree(parts: seq<string>) {
    forall i :: 0 <= i < |parts| ==> DelimiterFree(parts[i])
  }

  /** `','.join(parts)`, the inverse of `Split` on non-empty lists of delimiter-free parts. */
  function Join(parts: seq<string>): string {
    if |parts| == 0 then ""
    else if |parts| == 1 then parts[0]
    else parts[0] + [Delimiter] + Join(parts[1..])
  }

  /** Python's `s.split(',')`: the empty string splits into one empty part. */
  function Split(s: string): (parts: seq<string>)
    ensures |parts| > 0
    ensures AllDelimiterFree(parts)
  {
    if |s| == 0 then [""]
    else
      var rest := Split(s[1..]);
      if s[0] == Delimiter then [""] + rest
      else [[s[0]] + rest[0]] + rest[1..]
  }

  /** A string without a delimiter splits into itself alone. */
  lemma {:induction false} SplitDelimiterFree(s: string)
    requires DelimiterFree(s)
    ensures Split(s) == [s]
  {
    if |s| > 0 {
      assert DelimiterFree(s[1..]);
      SplitDelimiterFree(s[1..]);
      assert [s[0]] + s[1..] == s;
    }
  }

  /** Splitting then joining gives back the tag string. */
  lemma {:induction false} JoinSplit(s: string)
    ensures Join(Split(s)) == s
  {
    if |s| > 0 {
      var rest := Split(s[1..]);
      JoinSplit(s[1..]);
      if s[0] == Delimiter {
        assert Join([""] + rest) == "" + [Delimiter] + Join(rest);
        assert [s[0]] + s[1..] == s;
      } else {
        var parts := [[s[0]] + rest[0]] + rest[1..];
        assert parts[1..] == rest[1..];
        if |rest| == 1 {
          assert Join(parts) == [s[0]] + rest[0];
        } else {
          assert Join(parts) == [s[0]] + rest[0] + [Delimiter] + Join(rest[1..]);
        }
        assert [s[0]] + s[1..] == s;
      }
    }
  }

  /** A delimiter-free prefix followed by a delimiter becomes one part of its own. */
  lemma {:induction false} SplitPrefix(p: string, t: string)
    requires DelimiterFree(p)
    ensures Split(p + [Delimiter] + t) == [p] + Split(t)
  {
    var s := p + [Delimiter] + t;
    if |p| == 0 {
      assert s[0] == Delimiter && s[1..] == t;
    } else {
      assert s[0] == p[0];
      assert s[1..] == p[1..] + [Delimiter] + t;
      assert DelimiterFree(p[1..]);
      SplitPrefix(p[1..], t);
      assert [p[0]] + p[1..] == p;
    }
  }

  /** Joining a non-empty list of delimiter-free tags then splitting gives back the list. */
  lemma {:induction false} SplitJoin(parts: seq<string>)
    requires |parts| > 0 && AllDelimiterFree(parts)
    ensures Split(Join(parts)) == parts
  {
    if |parts| == 1 {
      SplitDelimiterFree(parts[0]);
    } else {
      assert DelimiterFree(parts[0]);
      SplitPrefix(parts[0], Join(parts[1..]));
      SplitJoin(parts[1..]);
      assert [parts[0]] + parts[1..] == parts;
    }
  }

  /** The timestamp the constructor records: the supplied one, else the clock reading. */
  function Stamp(timestamp: Option<real>, now: real): real {
    match timestamp
    case Some(t) => t
    case None => now
  }

  /**
    What the constructor promises, stated without `Split`: a copy repeats its
    source; otherwise the data and timestamp come from the arguments and the
    tags are the default tag, the given list, or a non-empty list of
    delimiter-free tags that joins back to the given string.
   */
  ghost predicate Describes(arg: TypeArg<Event>, data: Payload, timestamp: Option<real>, now: real, e: Event) {
    match arg
    case Copy(src) => e == src
    case NoType =>
      e.data == data && e.timestamp == Stamp(timestamp, now) && e.tags == [DefaultEventType]
    case TagList(tags) =>
      e.data == data && e.timestamp == Stamp(timestamp, now) && e.tags == tags
    case TagString(s) =>
      && e.data == data && e.timestamp == Stamp(timestamp, now)
      && |e.tags| > 0 && AllDelimiterFree(e.tags) && Join(e.tags) == s
  }

  /**
    `Event.__init__` with the evidently intended assignment of the split tag
    list (the source computes it and drops it).  A copy ignores `data` and
    `timestamp`.
   */
  function NewEvent(arg: TypeArg<Event>, data: Payload, timestamp: Option<real>, now: real): (e: Event)
    ensures Describes(arg, data, timestamp, now, e)
    ensures arg.TagString? && DelimiterFree(arg.s) ==> e.tags == [arg.s]
    ensures !arg.Copy? ==> |e.tags| > 0 || (arg.TagList? && arg.tags == [])
  {
    match arg
    case Copy(src) => src
    case NoType =>
      SplitDelimiterFree(DefaultEventType);
      Event(Stamp(timestamp, now), Split(DefaultEventType), data)
    case TagString(s) =>
      JoinSplit(s);
      if DelimiterFree(s) then SplitDelimiterFree(s); Event(Stamp(timestamp, now), Split(s), data)
      else Event(Stamp(timestamp, now), Split(s), data)
    case TagList(tags) => Event(Stamp(timestamp, now), tags, data)
  }

  /** The description fixes the event: no two different events satisfy it. */
  lemma DescribesUnique(arg: TypeArg<Event>, data: Payload, timestamp: Option<real>, now: real, e1: Event, e2: Event)
    requires Describes(arg, data, timestamp, now, e1)
    requires Describes(arg, data, timestamp, now, e2)
    ensures e1 == e2
  {
    if arg.TagString? {
      SplitJoin(e1.tags);
      SplitJoin(e2.tags);
    }
  }

  /** `Event.create_event` with `_class` left at `Event`. */
  function CreateEvent(arg: TypeArg<Event>, data: Payload, timestamp: Option<real>, now: real): (e: Event)
    ensures Describes(arg, data, timestamp, now, e)
  {
    NewEvent(arg, data, timestamp, now)
  }

  /**
    The object `Event.__init__` builds as written.  `eventType` is `None`
    when the `event_type` slot was never assigned; reading it then raises
    `AttributeError`, since the class declares `__slots__`.
   */
  datatype SlotEvent = SlotEvent(timestamp: real, eventType: Option<seq<string>>, data: Payload)

  /** The exception reading an unassigned slot raises. */
  datatype SlotError = UnsetAttribute

  /**
    `Event.__init__` as written.  The non-copy branch never assigns
    `event_type`; the copy branch reads the source's `event_type` and so
    raises when that slot is unset.
   */
  function InitAsWritten(arg: TypeArg<SlotEvent>, data: Payload, timestamp: Option<real>, now: real)
    : (r: Result<SlotEvent, SlotError>)
    ensures r.Failure? <==> arg.Copy? && arg.source.eventType.None?
    ensures r.Success? && r.value.eventType.Some? ==> arg.Copy? && arg.source.eventType.Some?
    ensures r.Success? && arg.Copy? ==> r.value == arg.source
  {
    match arg
    case Copy(src) =>
      if src.eventType.None? then Failure(UnsetAttribute)
      else Success(SlotEvent(src.timestamp, src.eventType, src.data))
    case _ => Success(SlotEvent(Stamp(timestamp, now), None, data))
  }

  /** A corrected event seen as a slotted object: every slot assigned. */
  function ToSlot(e: Event): SlotEvent {
    SlotEvent(e.timestamp, Some(e.tags), e.data)
  }

  function ArgToSlot(arg: TypeArg<Event>): TypeArg<SlotEvent> {
    match arg
    case NoType => NoType
    case Copy(e) => Copy(ToSlot(e))
    case TagString(s) => TagString(s)
    case TagList(tags) => TagList(tags)
  }

  /**
    `Event('general')` is the witness: as written it has no `event_type`
    (the test expects a list there), and copying it raises; the corrected
    constructor gives `['general']`.
   */
  lemma GeneralEventHasNoTags(now: real)
    ensures var r := InitAsWritten(TagString("general"), NoData, None, now);
            && r.Success? && r.value.eventType == None
            && InitAsWritten(Copy(r.value), NoData, None, now) == Failure(UnsetAttribute)
    ensures NewEvent(TagString("general"), NoData, None, now).tags == ["general"]
  {
  }

  /**
    Given a source whose slots are all assigned, the as-written and corrected
    constructors agree on timestamp and data, and on the tags of a copy;
    they differ only in the missing slot of a fresh event.
   */
  lemma InitAsWrittenAgrees(arg: TypeArg<Event>, data: Payload, timestamp: Option<real>, now: real)
    ensures var e := NewEvent(arg, data, timestamp, now);
            InitAsWritten(ArgToSlot(arg), data, timestamp, now)
              == Success(SlotEvent(e.timestamp, if arg.Copy? then Some(e.tags) else None, e.data))
  {
  }
}

=== FILE: handlers.dfy ===
/**
  `EventTypeHandler` of hdmi2usbmon/events/events.py: a handler that accepts
  the events whose tags meet its `filter_only` list (every event when the
  list is empty).  The callable it wraps is not modelled here: dispatch
  records each call as a delivery instead.
 */
module Handlers {
  import opened Events

  /** One `*types` argument: a single tag, or a list/tuple of tags flattened one level. */
  datatype TypeSpec = Single(tag: string) | Group(tags: seq<string>)

  /** A handler object; `id` stands for Python's object identity. */
  datatype Handler = TypeHandler(id: nat, filterOnly: seq<string>)

  ghost predicate Mentions(spec: TypeSpec, t: string) {
    match spec
    case Single(tag) => t == tag
    case Group(tags) => t in tags
  }

  /** The tags one `*types` argument contributes, in order. */
  function Contribution(spec: TypeSpec): seq<string> {
    match spec
    case Single(tag) => [tag]
    case Group(tags) => tags
  }

  /** Some argument of `*types` names tag `t`. */
  ghost predicate Listed(types: seq<TypeSpec>, t: string) {
    exists i :: 0 <= i < |types| && Mentions(types[i], t)
  }

  lemma ListedUncons(types: seq<TypeSpec>, t: string)
    requires |types| > 0
    ensures Listed(types, t) <==> Mentions(types[0], t) || Listed(types[1..], t)
  {
    if Listed(types, t) {
      var i :| 0 <= i < |types| && Mentions(types[i], t);
      if i > 0 {
        assert Mentions(types[1..][i - 1], t);
      }
    }
    if Listed(types[1..], t) {
      var i :| 0 <= i < |types[1..]| && Mentions(types[1..][i], t);
      assert Mentions(types[i + 1], t);
    }
  }

  /** The `filter_only` list the constructor's loop builds from `*types`. */
  function Flatten(types: seq<TypeSpec>): (r: seq<string>)
    ensures forall t :: t in r <==> Listed(types, t)
  {
    if |types| == 0 then []
    else
      var r := Contribution(types[0]) + Flatten(types[1..]);
      assert forall t :: t in r <==> Listed(types, t) by {
        forall t {
          ListedUncons(types, t);
        }
      }
      r
  }

  /** `EventTypeHandler.__init__(func, *types)`. */
  function NewTypeHandler(id: nat, types: seq<TypeSpec>): (h: Handler)
    ensures h.id == id
    ensures forall t :: t in h.filterOnly <==> Listed(types, t)
    ensures |types| > 0 && (forall i :: 0 <= i < |types| ==> types[i].Single?) ==> |h.filterOnly| > 0
  {
    TypeHandler(id, Flatten(types))
  }

  /** Whether `accept_event` returns true: an empty filter accepts everything. */
  predicate Accepts(h: Handler, e: Event) {
    |h.filterOnly| == 0 || exists i :: 0 <= i < |e.tags| && e.tags[i] in h.filterOnly
  }

  /** `accept_event`, with its early-returning loop over the event's tags. */
  method AcceptEvent(h: Handler, e: Event) returns (ok: bool)
    ensures ok <==> Accepts(h, e)
  {
    if |h.filterOnly| == 0 {
      return true;
    }
    for i := 0 to |e.tags|
      invariant forall j :: 0 <= j < i ==> e.tags[j] !in h.filterOnly
    {
      if e.tags[i] in h.filterOnly {
        return true;
      }
    }
    return false;
  }

  /** Acceptance is set intersection of tags and filter, unless the filter is empty. */
  lemma AcceptsIffIntersects(h: Handler, e: Event)
    ensures Accepts(h, e) <==> |h.filterOnly| == 0 || (set t | t in e.tags) * (set t | t in h.filterOnly) != {}
  {
    if |h.filterOnly| > 0 && (set t | t in e.tags) * (set t | t in h.filterOnly) != {} {
      var t :| t in (set t | t in e.tags) * (set t | t in h.filterOnly);
      var i :| 0 <= i < |e.tags| && e.tags[i] == t;
    }
    if |h.filterOnly| > 0 && Accepts(h, e) {
      var i :| 0 <= i < |e.tags| && e.tags[i] in h.filterOnly;
      assert e.tags[i] in (set t | t in e.tags) * (set t | t in h.filterOnly);
    }
  }
}

=== FILE: wrappers.dfy ===
/** Option and Result datatypes for Python's `None` arguments and raised exceptions. */
module Wrappers {

  /** Stands for an optional Python argument: `None` or a value. */
  datatype Option<+T> = None | Some(value: T)

  /** Stands for a call that either returns a value or raises. */
  datatype Result<+R, +E> = Success(value: R) | Failure(error: E)
}
